=== FILE: README.md ===
# reddit_watcher, modelled in Dafny

`reddit_watcher.py` polls saved Reddit searches and pushes a notification
for every new post. This project models the deterministic core of one
polling cycle (`main`) and the value types it moves around:

- **Cursor truncation.** Each search's result list (newest first) is walked
  from the front. The walk stops at the first post older than the search's
  `last_run_utc`. The cursor then moves to the time read just before the
  fetch (`Polling.Fresh`, `Polling.PollSearch`).
- **The cycle as a fold.** `Polling.CycleFrom` folds the searches into one
  shared deal list. It saves each advanced search row. It either completes
  and pushes every deal (`Polling.Sent`) or is ended by the first fetch that
  raises.
- **Deduplication.** `Deals.Add` merges a deal whose post is already listed
  into that entry, keeping the entry's position. The new searches go at the
  end of the entry's search list (`combine_searches`). Any other deal is
  appended. Two deals are the same deal when their `Post` values are equal,
  that is when title, url and posting time all agree.
- **Notification text.** `Formatting.FormatSearchesStr` follows
  `_format_searches_str` loop for loop. It is proved equal to the reference
  definition `Formatting.Attribution`, an Oxford-comma join of the
  lower-cased labels with the first capitalised. A deal's push title is that
  clause, then `" deal: "`, then the post title.
- **Decoding and parameters.** `Posts.Decode` models `RedditPost.decode`,
  including Python's `int()` on the JSON time field (`Json.ToInt`).
  `Posts.FirstListing` models `_first_listing`. `Searches.SearchParams`
  models `RedditSearch.params`.

Modules, one concept each:
- `Wrappers` (Option, Result) and `PyErrors` (the exceptions the core can
  raise);
- `Ascii` (ASCII `lower` and `capitalize`);
- `Json` (decoded JSON, `v[key]`, `int()` and `str()` on integers);
- `Posts`, `Searches` and `Formatting`;
- `Lists` (`index`, `pop` and `insert` on sequences);
- `Deals`, `Polling`;
- `AsWritten` (the source's `Deals.add` and deal equality taken literally;
  see Findings).

Behaviour of the code worth knowing, all of it modelled as written:
- The notification title is the attribution clause, then `" deal: "`, then
  the post title, with nothing before the clause. One search labelled
  "Deals" gives "Deals deal: <title>".
- A fetch that raises ends `main`. Rows saved before it keep their new
  cursors, the failed search and later ones keep their old cursors, and
  nothing is pushed (the `Aborted` outcome).
- Each cursor is saved right after its search (lines 35-36), before any push
  (line 38).
- `combine_searches` appends the other deal's searches as they are, repeats
  included.
- Cursors are not monotonic. Line 35 assigns the time read before the fetch
  unconditionally, so a clock that steps back moves the cursor back, and
  `Polling.Advance` accepts any `now`.
- The comment at line 34 says a cursor is updated only once the pushes were
  sent. The code saves it at line 36, before any push (line 38) and even
  when a later fetch ends the cycle.

One choice the model makes instead of following the code: deals whose posts
(title, url and posting time) are equal are merged by `Deals.Add`. This is
the evident intent of the comment at lines 21-22. The code as written never
merges: its deal equality also compares the attribution clause, and on any
match `Deals.add` raises NameError (see Findings and module `AsWritten`).

## Model

| member | source | states |
|---|---|---|
| Polling.Fresh | reddit_watcher.py:28-32 | the posts a search reports are the longest prefix of the result list with no post older than the cursor; the first post after that prefix is older than the cursor |
| Polling.StopsAtFirstStale | reddit_watcher.py:28-30 | nothing at or after the first post older than the cursor is reported, even if later posts are newer |
| Polling.WholePageWhenNoneStale | reddit_watcher.py:28-32 | when no post is older than the cursor, every post is reported |
| Polling.NewestFirstTruncationIsFilter | reddit_watcher.py:28-30 | on a newest-first list, stopping at the first stale post reports exactly the posts not older than the cursor (an independent filter definition) |
| Polling.PollSearch | reddit_watcher.py:24-36 | one search yields one deal per reported post, in result order, each naming that search and only it; the search's cursor becomes the time read before the fetch, whatever the results |
| Polling.CursorScenario | reddit_watcher.py:25-36 | with the cursor at t0, a post at t0+30 is reported and one at t0-10 is not; an empty result still moves the cursor to the time read |
| Polling.Sent | reddit_watcher.py:38 | a completed cycle pushes one push per deal in list order; a cycle a fetch aborted pushes nothing |
| Polling.NoFailureRunsToEnd | reddit_watcher.py:24-26 | when no fetch raises, the loop reaches the end of the search list |
| Polling.StoredAfterAt | reddit_watcher.py:35-36 | after k searches have been handled, rows before k carry their new cursors and the others are unchanged |
| Polling.CycleFromOutcome | reddit_watcher.py:24-38 | the cycle completes exactly when no fetch raised; otherwise it ends with the first raised error |
| Polling.CycleFromSaved | reddit_watcher.py:24-36 | the rows saved are the earlier rows followed by each row as left by the loop: advanced up to the first failed fetch, untouched from it on |
| Polling.CycleFromDeals | reddit_watcher.py:24-32 | a completed cycle's deal list is the fold of `Deals.add` over every reported deal, in search order then result order |
| Polling.CycleCursors | reddit_watcher.py:24-38 | a cycle completes iff every fetch succeeds; every row appears in the stored list; when it completes, each cursor is the time read before its own fetch; when it aborts at search k, cursors before k moved and cursors from k on did not, and the error is search k's |
| Polling.FoundPosts | reddit_watcher.py:24-32 | a post is among the deals the first k searches contribute iff one of those searches reported it as new |
| Polling.FoundSightings | reddit_watcher.py:32 | each contributed deal carries exactly one search, so the sightings number the contributed deals |
| Polling.CycleOneDealPerPost | reddit_watcher.py:21-38 | when every fetch succeeds the cycle completes with one deal per distinct post; the posts are exactly those some search reported as new; no sighting is lost; each deal carries exactly the searches that reported its post, in the order they reported it; each deal is pushed once, in list order |
| Polling.CrossSearchScenario | reddit_watcher.py:21-38 | two searches reporting the same new post yield one deal attributed to both searches in iteration order, and exactly one push |
| Polling.FailedFetchScenario | reddit_watcher.py:24-38 | when the second fetch raises, the first search keeps its new cursor, the failed one keeps its old cursor, and its deal is never pushed |
| Deals.NewDeal | reddit_watcher.py:354-359 | a fresh deal copies the post and has exactly one search, the one that found it |
| Deals.CombineSearches | reddit_watcher.py:363-364 | merging keeps the existing post; the searches are the existing ones followed by the other deal's |
| Deals.DealPush | reddit_watcher.py:305-315 | a deal pushes its attribution title, no body, and the post's url |
| Deals.NewDealPushTitle | reddit_watcher.py:372-374 | a deal found by one search is titled with that search's label, capitalised, then " deal: " and the post title |
| Deals.TwoSearchPushTitle | reddit_watcher.py:372-393 | a deal found by two searches is titled "First, and second deal: <title>" |
| Deals.Pushes | reddit_watcher.py:349-351 | iterating the deal list yields each deal once, in list order |
| Deals.Add | reddit_watcher.py:340-347 | a deal whose post is not listed is appended and nothing else changes; otherwise the list keeps its length, the first entry with that post gains the new searches at the end of its list, and every other entry is unchanged |
| Deals.AddKeepsKeyOrder | reddit_watcher.py:340-347 | the list of posts is unchanged by a merge and grows by the new post at the end on an append |
| Deals.AddKeepsKeysUnique | reddit_watcher.py:340-347 | a list with one deal per post still has one deal per post after `add` |
| Deals.AddMergesAt | reddit_watcher.py:341-345 | with unique posts, adding a deal for entry k's post replaces entry k by its merge and leaves the rest in place |
| Deals.AddKeepsSightings | reddit_watcher.py:340-347 | `add` loses no attribution: the total number of search sightings grows by the new deal's |
| Deals.AddAllInvariants | reddit_watcher.py:21-23 | across any sequence of `add`s: posts stay unique, the posts listed are exactly those seen, and no sighting is lost |
| Deals.AddAttributes | reddit_watcher.py:340-347 | after one `add`, each entry carries exactly the searches of the added deals for its post, in order, and every added post is listed once |
| Deals.AddAllAttributes | reddit_watcher.py:21-32 | the same holds across any sequence of `add`s |
| Deals.AddAllAttribution | reddit_watcher.py:21-32 | starting from an empty `Deals`, each entry carries the searches of every added deal for its post, in the order they were added |
| Deals.AddAllConcat | reddit_watcher.py:24-32 | adding a concatenation is adding its parts in turn |
| Formatting.FormatSearchesStr | reddit_watcher.py:381-393 | the loop builds exactly the reference attribution clause of the searches' labels |
| Formatting.RemainingIsTail | reddit_watcher.py:384-391 | loop iterations i and on append the Oxford tail of the labels from i |
| Formatting.AttributionSmallCases | reddit_watcher.py:381-393 | no searches give ""; one gives its label capitalised; two give "A, and b" |
| Formatting.OxfordComma | reddit_watcher.py:384-391 | with two or more labels, the middle ones follow ", " and the last follows ", and ", all lower-cased |
| Formatting.OnlyFirstLetterUpper | reddit_watcher.py:385-387 | only the first character of the clause can be an upper-case letter |
| Formatting.AttributionIgnoresCase | reddit_watcher.py:385 | the clause depends only on the lower-cased labels |
| Formatting.OneLabelExample | reddit_watcher.py:381-393 | ["Deals"] gives "Deals" |
| Formatting.TwoLabelExample | reddit_watcher.py:381-393 | ["Deals", "Sales"] gives "Deals, and sales" |
| Formatting.ThreeLabelExample | reddit_watcher.py:381-393 | ["A", "B", "C"] gives "A, b, and c" |
| Ascii.CapitalizeIgnoresCase | reddit_watcher.py:385-387 | `s.lower().capitalize()` equals `s.capitalize()` |
| Posts.Decode | reddit_watcher.py:263-273 | a non-dict item or data raises TypeError; the first missing key among data, title, url and created_utc raises KeyError for it; an `int()` failure on created_utc is raised next, then TypeError for a non-str title or url; otherwise the post holds the title and url strs and `int()` of created_utc, and every success arises this way |
| Posts.DecodeRoundTrip | test_reddit_watcher.py:264-273 | decoding the item the tests build (time as a decimal string) gives back the post; the post pushes its title, no body and its url |
| Posts.DecodeIntegerTime | reddit_watcher.py:268-271 | a time sent as a JSON integer is taken as is |
| Posts.DecodeBadTime | reddit_watcher.py:271 | a time `int()` rejects makes decode fail with that error |
| Posts.FirstListing | reddit_watcher.py:99-102 | a list gives its first element, an empty list raises IndexError, anything else is returned unchanged |
| Posts.DecodeAll | reddit_watcher.py:84-88 | decoding a list succeeds iff every item decodes, element for element; on failure, the error is that of the first item that fails |
| Posts.DecodeChildren | reddit_watcher.py:82-88 | lookup errors on data/children propagate; a list decodes as its items do; a dict or str succeeds, with no posts, iff it is empty, and otherwise raises TypeError; anything else raises TypeError |
| Posts.DecodeListing | reddit_watcher.py:80-88 | an empty list response raises IndexError; a non-empty list decodes its first element's children; anything else decodes its own children |
| Searches.SearchParams | reddit_watcher.py:157-164 | the query passes through, type is "link", an explicit limit wins over the default, and sort is the kind's |
| Searches.DefaultParams | reddit_watcher.py:186-188 | a watched search asks for 10 results sorted "new" by default; a plain one leaves both unset |
| Json.Subscript | reddit_watcher.py:265-268 | a lookup succeeds iff the value is a dict holding the key; a missing key raises KeyError, and a non-dict raises TypeError |
| Json.ParseInt | reddit_watcher.py:271 | a str is accepted iff, once the white space `int()` skips is stripped, it is an optional sign followed by one or more decimal digits; all-digit strings give their decimal value; every rejection is a ValueError |
| Json.ParseRejectsExamples | reddit_watcher.py:271 | "1.5", "abc" and "\x1c5" raise ValueError |
| Json.ParseAcceptsExample | reddit_watcher.py:271 | "\t-42 " gives -42 |
| Json.ToInt | reddit_watcher.py:271 | ints pass through, bools give 0 or 1, floats truncate toward zero (same sign, magnitude within 1 below), strs are parsed, anything else raises TypeError |
| Json.ParseDecimalString | reddit_watcher.py:271 | `int(str(n)) == n` for every integer n |
| Json.StripIgnoresPadding | reddit_watcher.py:271 | any leading and trailing white space is stripped away, whatever lies between |
| Json.ParseIgnoresPadding | reddit_watcher.py:271 | any leading and trailing white space around a string does not change what `int()` reads |
| AsWritten.EqualAsWrittenComparesAttribution | reddit_watcher.py:234-239 | as written, two deals are equal iff their posts are equal and their attribution clauses are equal |
| AsWritten.AddAsWritten | reddit_watcher.py:340-347 | as written, `add` appends iff no listed deal is equal, and raises NameError("other") otherwise |
| AsWritten.AsWrittenNeverMergesAcrossSearches | reddit_watcher.py:326-331 | as written, the same post found by "Laptop Deals" and by "Electronics" is listed twice |
| AsWritten.AsWrittenMatchRaises | reddit_watcher.py:341-343 | as written, a second sighting by a search with the same label raises NameError |
| Deals.SecondSightingMerges | reddit_watcher.py:341-345 | the intended `add` merges both sightings into one deal carrying both searches in order |

## Left out

- HTTP fetching (`RedditSearch.result`, `RedditGetRequest.items`) and Pushbullet delivery (`PushbulletAccount`) are network I/O. Fetched results, or the exception a fetch raised, are inputs to the cycle; the pushes are its output.
- peewee/SQLite persistence (`search.save()`, `db.connect`, `create_tables`) and the `secrets` token are I/O. Saving is modelled by the cycle's `saved` list: the stored rows after the cycle, one per search, each either advanced by the loop or, from the failed fetch on, as it was.
- The clock: `datetime.utcnow()` is a per-search input `now`.
- `datetime.utcfromtimestamp`: times are whole UTC seconds, so its range limits and microseconds are not modelled. Posts.Decode does not raise the OverflowError or OSError that a timestamp out of the platform's range would raise.
- `__str__`, `_str_data`, `json.dumps` and printing are output formatting.
- `query_string` and `reddit_url` are not modelled because they call `urllib.parse.urlencode`.
- `first_result` only calls the network-bound `result`.
- The user-agent strings are constant concatenations.
- `__hash__` always returns 1; equality is an explicit key instead.
- `RedditSearch.__eq__` compares queries and is never used by the core.
- `RedditWatchedSearch.__eq__` cannot be called, because its signature takes no `other`.
- Json.ToInt: on a str, skips only the ASCII white space `int()` skips (space, tab, line feed, vertical tab, form feed, carriage return) and reads ASCII digits only; underscores in literals, non-ASCII digits and white space, and floats that are infinite or NaN are not modelled.
- Ascii.Lower and Ascii.Capitalize: ASCII only; Python's Unicode case mapping (including letters whose case changes length) is not modelled.
- Concurrency: none in the source.

## Findings

| source | as written | input that shows it | evidently intended | confidence | as-written member | corrected member |
|---|---|---|---|---|---|---|
| reddit_watcher.py:341-345 | when the new deal equals a listed one, `add` refers to the undefined names `other` (line 342) and `i` (line 343); the NameError is raised at line 342 | two searches with the same label both report the same new post | find the index of the matching deal, pop it, extend its searches and re-insert it at the same index | not executed | AsWritten.AsWrittenMatchRaises | Deals.AddMergesAt |
| reddit_watcher.py:234-239 | deal equality (`RedditPost.__eq__` at 326-331 calling `Pushable.__eq__`) compares push titles, and a deal's push title contains its search labels (372-374), so deals from differently labelled searches are never equal | one post reported by searches labelled "Laptop Deals" and "Electronics" | deals are the same when their posts are, so overlapping hits are pushed once (comment at 21-22) | not executed | AsWritten.AsWrittenNeverMergesAcrossSearches | Polling.CrossSearchScenario |

=== FILE: ascii.dfy ===
/** ASCII-only versions of Python's `str.lower()` and `str.capitalize()`. */
module Ascii {

  predicate IsUpper(c: char) {
    'A' <= c <= 'Z'
  }

  predicate IsLower(c: char) {
    'a' <= c <= 'z'
  }

  function LowerChar(c: char): (r: char)
    ensures !IsUpper(r)
    ensures IsUpper(c) ==> IsLower(r)
    ensures !IsUpper(c) ==> r == c
  {
    if IsUpper(c) then (c as int + 32) as char else c
  }

  function UpperChar(c: char): (r: char)
    ensures !IsLower(r)
    ensures IsLower(c) ==> IsUpper(r)
    ensures !IsLower(c) ==> r == c
  {
    if IsLower(c) then (c as int - 32) as char else c
  }

  /** `s.lower()` */
  function Lower(s: string): (r: string)
    ensures |r| == |s|
    ensures forall i :: 0 <= i < |s| ==> r[i] == LowerChar(s[i])
  {
    seq(|s|, i requires 0 <= i < |s| => LowerChar(s[i]))
  }

  /** `s.capitalize()`: the first character upper-cased, the rest lower-cased. */
  function Capitalize(s: string): (r: string)
    ensures |r| == |s|
  {
    if |s| == 0 then "" else [UpperChar(s[0])] + Lower(s[1..])
  }

  /** No character of `s` is an upper-case letter. */
  predicate NoUpper(s: string) {
    forall i :: 0 <= i < |s| ==> !IsUpper(s[i])
  }

  lemma LowerHasNoUpper(s: string)
    ensures NoUpper(Lower(s))
  {
  }

  /** Capitalising ignores the case the string already had, so
      `s.lower().capitalize()` is `s.capitalize()`. */
  lemma CapitalizeIgnoresCase(s: string)
    ensures Capitalize(Lower(s)) == Capitalize(s)
  {
    if |s| > 0 {
      assert Lower(s)[1..] == Lower(s[1..]);
    }
  }

  lemma CapitalizeTailHasNoUpper(s: string)
    ensures |s| > 0 ==> NoUpper(Capitalize(s)[1..])
  {
    if |s| > 0 {
      assert Capitalize(s)[1..] == Lower(s[1..]);
    }
  }
}

=== FILE: aswritten.dfy ===
/** `Deals.add` and deal equality exactly as the source writes them, kept
    apart from the rest of the model, which uses the evidently intended
    versions in module Deals. */
module AsWritten {
  import opened Wrappers
  import opened Ascii
  import opened PyErrors
  import opened Posts
  import opened Searches
  import opened Formatting
  import opened Deals

  /** `deal == other` for two deals: `RedditPost.__eq__` first calls
      `Pushable.__eq__`, which compares push titles, push bodies, and the url
      with the other's push url, and then compares title, url and posting
      time. A deal's push title contains its attribution clause. */
  predicate EqualAsWritten(a: Deal, b: Deal) {
    && DealPushTitle(a) == DealPushTitle(b)
    && PushBody(a.post) == PushBody(b.post)
    && a.post.url == PushUrl(b.post)
    && a.post.title == b.post.title
    && a.post.url == b.post.url
    && a.post.postedUtc == b.post.postedUtc
  }

  lemma SameSuffix(x: string, y: string, s: string)
    requires x + s == y + s
    ensures x == y
  {
    assert |x| == |y|;
    assert forall i :: 0 <= i < |x| ==> x[i] == (x + s)[i] == (y + s)[i] == y[i];
  }

  /** As written, two deals are equal exactly when their posts are equal AND
      their attribution clauses are equal, so the searches that found them
      take part in the comparison. */
  lemma EqualAsWrittenComparesAttribution(a: Deal, b: Deal)
    ensures EqualAsWritten(a, b) <==>
      a.post == b.post && Attribution(Labels(a.searches)) == Attribution(Labels(b.searches))
  {
    var x := Attribution(Labels(a.searches));
    var y := Attribution(Labels(b.searches));
    if EqualAsWritten(a, b) {
      assert (x + " deal: ") + a.post.title == (y + " deal: ") + a.post.title;
      SameSuffix(x + " deal: ", y + " deal: ", a.post.title);
      SameSuffix(x, y, " deal: ");
    }
  }

  /** `Deals.add` as written: when an equal deal is listed, line 342 reads the
      undefined name `other` and raises NameError; otherwise the deal is
      appended. */
  function AddAsWritten(deals: seq<Deal>, d: Deal): (r: Result<seq<Deal>, PyError>)
    ensures r.Success? <==> forall i :: 0 <= i < |deals| ==> !EqualAsWritten(deals[i], d)
    ensures r.Success? ==> r.value == deals + [d]
    ensures r.Failure? ==> r.error == NameError("other")
  {
    if exists i :: 0 <= i < |deals| && EqualAsWritten(deals[i], d) then
      Failure(NameError("other"))
    else
      Success(deals + [d])
  }

  /** Deals for one post found by two differently labelled searches are never
      equal as written, so the post is listed (and pushed) twice. */
  lemma AsWrittenNeverMergesAcrossSearches(s1: WatchedSearch, s2: WatchedSearch, p: Post)
    requires s1.title == "Laptop Deals" && s2.title == "Electronics"
    ensures !EqualAsWritten(NewDeal(s1, p), NewDeal(s2, p))
    ensures AddAsWritten([NewDeal(s1, p)], NewDeal(s2, p)) == Success([NewDeal(s1, p), NewDeal(s2, p)])
  {
    EqualAsWrittenComparesAttribution(NewDeal(s1, p), NewDeal(s2, p));
    AttributionSmallCases(Labels([s1]));
    AttributionSmallCases(Labels([s2]));
    assert Attribution(Labels([s1]))[0] == UpperChar('L');
    assert Attribution(Labels([s2]))[0] == UpperChar('E');
    assert forall i :: 0 <= i < |[NewDeal(s1, p)]| ==> !EqualAsWritten([NewDeal(s1, p)][i], NewDeal(s2, p));
    assert [NewDeal(s1, p)] + [NewDeal(s2, p)] == [NewDeal(s1, p), NewDeal(s2, p)];
  }

  /** Whenever a match is found, as with two searches sharing a label that
      both find the same post, `add` raises instead of merging. */
  lemma AsWrittenMatchRaises(s1: WatchedSearch, s2: WatchedSearch, p: Post)
    requires s1.title == s2.title
    ensures AddAsWritten([NewDeal(s1, p)], NewDeal(s2, p)) == Failure(NameError("other"))
  {
    assert Labels([s1]) == Labels([s2]);
    assert EqualAsWritten([NewDeal(s1, p)][0], NewDeal(s2, p));
  }
}

=== FILE: deals.dfy ===
/** Deals (`RedditDeal`) and the ordered collection of deals a polling cycle
    builds (`Deals`). A deal is a post together with the searches that found
    it. Two deals denote the same thing when their posts are equal, that is,
    when title, url and posting time all agree. */
module Deals {
  import opened Wrappers
  import opened Ascii
  import opened Lists
  import opened Posts
  import opened Searches
  import opened Formatting

  datatype Deal = Deal(post: Post, searches: seq<WatchedSearch>)

  /** `RedditDeal(search, post)`: the post's fields, found by one search. */
  function NewDeal(search: WatchedSearch, post: Post): (d: Deal)
    ensures d.post == post
    ensures d.searches == [search]
  {
    Deal(post, [search])
  }

  /** `combine_searches`: the existing deal keeps its post and gains the other
      deal's searches at the end. */
  function CombineSearches(existing: Deal, other: Deal): (d: Deal)
    ensures d.post == existing.post
    ensures |d.searches| == |existing.searches| + |other.searches|
    ensures d.searches[..|existing.searches|] == existing.searches
    ensures d.searches[|existing.searches|..] == other.searches
  {
    Deal(existing.post, existing.searches + other.searches)
  }

  // ---------------------------------------------------------------------
  // What a deal pushes
  // ---------------------------------------------------------------------

  /** `RedditDeal.push_title` */
  function DealPushTitle(d: Deal): string {
    Attribution(Labels(d.searches)) + " deal: " + d.post.title
  }

  /** A deal found by one search is titled with that search's label,
      capitalised. */
  lemma NewDealPushTitle(search: WatchedSearch, post: Post)
    ensures DealPushTitle(NewDeal(search, post)) == Capitalize(search.title) + " deal: " + post.title
  {
    AttributionSmallCases(Labels([search]));
  }

  /** A deal found by two searches is titled "First, and second deal: ...". */
  lemma TwoSearchPushTitle(s1: WatchedSearch, s2: WatchedSearch, post: Post)
    ensures DealPushTitle(Deal(post, [s1, s2]))
      == Capitalize(s1.title) + ", and " + Lower(s2.title) + " deal: " + post.title
  {
    AttributionSmallCases(Labels([s1, s2]));
  }

  /** The payload handed to the notification sink: a link push. */
  datatype Push = Push(title: string, body: Option<string>, url: string)

  /** The push for one deal. A deal inherits the post's empty body and url. */
  function DealPush(d: Deal): (p: Push)
    ensures p.title == DealPushTitle(d)
    ensures p.body == PushBody(d.post) && p.body.None?
    ensures p.url == PushUrl(d.post) && p.url == d.post.url
  {
    Push(DealPushTitle(d), PushBody(d.post), PushUrl(d.post))
  }

  /** Iterating `Deals` yields the deals in list order, one push each. */
  function Pushes(deals: seq<Deal>): (r: seq<Push>)
    ensures |r| == |deals|
    ensures forall i :: 0 <= i < |deals| ==> r[i] == DealPush(deals[i])
  {
    seq(|deals|, i requires 0 <= i < |deals| => DealPush(deals[i]))
  }

  // ---------------------------------------------------------------------
  // The deal collection
  // ---------------------------------------------------------------------

  /** The equality key of each deal, in list order. */
  function PostsOf(deals: seq<Deal>): (r: seq<Post>)
    ensures |r| == |deals|
    ensures forall i :: 0 <= i < |deals| ==> r[i] == deals[i].post
  {
    seq(|deals|, i requires 0 <= i < |deals| => deals[i].post)
  }

  lemma PostsOfConcat(a: seq<Deal>, b: seq<Deal>)
    ensures PostsOf(a + b) == PostsOf(a) + PostsOf(b)
  {
  }

  /** `Deals.add`, as intended: a deal whose post is already listed is merged
      into the first such entry, which is popped and re-inserted at its own
      position; any other deal is appended. */
  function Add(deals: seq<Deal>, d: Deal): (r: seq<Deal>)
    ensures d.post !in PostsOf(deals) ==> r == deals + [d]
    ensures d.post in PostsOf(deals) ==>
      var k := IndexOf(PostsOf(deals), d.post);
      && |r| == |deals|
      && r[k] == Deal(deals[k].post, deals[k].searches + d.searches)
      && forall j :: 0 <= j < |deals| && j != k ==> r[j] == deals[j]
  {
    if d.post in PostsOf(deals) then
      var ind := IndexOf(PostsOf(deals), d.post);
      var existing := deals[ind];
      PopThenInsert(deals, ind, CombineSearches(existing, d));
      Insert(Pop(deals, ind), ind, CombineSearches(existing, d))
    else
      deals + [d]
  }

  /** Adding never reorders or drops keys: a merge keeps the key list, an
      append extends it by the new deal's post. */
  lemma AddKeepsKeyOrder(deals: seq<Deal>, d: Deal)
    ensures d.post in PostsOf(deals) ==> PostsOf(Add(deals, d)) == PostsOf(deals)
    ensures d.post !in PostsOf(deals) ==> PostsOf(Add(deals, d)) == PostsOf(deals) + [d.post]
  {
    var r := Add(deals, d);
    if d.post in PostsOf(deals) {
      assert forall j :: 0 <= j < |r| ==> PostsOf(r)[j] == PostsOf(deals)[j];
    } else {
      assert forall j :: 0 <= j < |r| ==> PostsOf(r)[j] == (PostsOf(deals) + [d.post])[j];
    }
  }

  /** A list with one deal per post still has one deal per post after `add`. */
  lemma AddKeepsKeysUnique(deals: seq<Deal>, d: Deal)
    requires NoDup(PostsOf(deals))
    ensures NoDup(PostsOf(Add(deals, d)))
  {
    AddKeepsKeyOrder(deals, d);
  }

  /** When keys are unique, a deal for the post at position `k` merges there. */
  lemma AddMergesAt(deals: seq<Deal>, d: Deal, k: nat)
    requires NoDup(PostsOf(deals))
    requires k < |deals| && deals[k].post == d.post
    ensures Add(deals, d) == deals[k := CombineSearches(deals[k], d)]
  {
    IndexOfUnique(PostsOf(deals), d.post, k);
  }

  /** A post seen by one search and then by another ends up as one deal
      carrying both searches, in the order they found it. */
  lemma SecondSightingMerges(s1: WatchedSearch, s2: WatchedSearch, p: Post)
    ensures Add([NewDeal(s1, p)], NewDeal(s2, p)) == [Deal(p, [s1, s2])]
  {
    assert PostsOf([NewDeal(s1, p)]) == [p];
    assert IndexOf([p], p) == 0;
    assert [s1] + [s2] == [s1, s2];
  }

  /** The number of (search, deal) attributions in a list. */
  function Sightings(deals: seq<Deal>): nat {
    if |deals| == 0 then 0 else |deals[0].searches| + Sightings(deals[1..])
  }

  lemma {:induction false} SightingsUpdate(deals: seq<Deal>, k: nat, x: Deal)
    requires k < |deals|
    ensures Sightings(deals[k := x]) + |deals[k].searches| == Sightings(deals) + |x.searches|
    decreases |deals|
  {
    if k > 0 {
      SightingsUpdate(deals[1..], k - 1, x);
      assert deals[k := x][1..] == deals[1..][k - 1 := x];
    }
  }

  lemma {:induction false} SightingsAppend(deals: seq<Deal>, d: Deal)
    ensures Sightings(deals + [d]) == Sightings(deals) + |d.searches|
    decreases |deals|
  {
    if |deals| > 0 {
      SightingsAppend(deals[1..], d);
      assert (deals + [d])[1..] == deals[1..] + [d];
    }
  }

  /** `add` loses no attribution: every search of the new deal ends up
      attributed to exactly one entry. */
  lemma AddKeepsSightings(deals: seq<Deal>, d: Deal)
    ensures Sightings(Add(deals, d)) == Sightings(deals) + |d.searches|
  {
    if d.post in PostsOf(deals) {
      var k := IndexOf(PostsOf(deals), d.post);
      PopThenInsert(deals, k, CombineSearches(deals[k], d));
      SightingsUpdate(deals, k, CombineSearches(deals[k], d));
    } else {
      SightingsAppend(deals, d);
    }
  }

  /** Adding a sequence of deals in order. */
  function AddAll(deals: seq<Deal>, ds: seq<Deal>): seq<Deal>
    decreases |ds|
  {
    if |ds| == 0 then deals else AddAll(Add(deals, ds[0]), ds[1..])
  }

  lemma KeysOfNonEmpty(ds: seq<Deal>)
    requires |ds| > 0
    ensures Elems(PostsOf(ds)) == {ds[0].post} + Elems(PostsOf(ds[1..]))
  {
    assert PostsOf(ds) == [ds[0].post] + PostsOf(ds[1..]);
  }

  /** Across any number of `add`s, one deal per post stays one deal per post,
      the posts listed are exactly those seen, and no attribution is lost. */
  lemma {:induction false} AddAllInvariants(deals: seq<Deal>, ds: seq<Deal>)
    ensures NoDup(PostsOf(deals)) ==> NoDup(PostsOf(AddAll(deals, ds)))
    ensures Elems(PostsOf(AddAll(deals, ds))) == Elems(PostsOf(deals)) + Elems(PostsOf(ds))
    ensures Sightings(AddAll(deals, ds)) == Sightings(deals) + Sightings(ds)
    decreases |ds|
  {
    if |ds| > 0 {
      var next := Add(deals, ds[0]);
      assert AddAll(deals, ds) == AddAll(next, ds[1..]);
      AddAllInvariants(next, ds[1..]);
      assert NoDup(PostsOf(deals)) ==> NoDup(PostsOf(next)) by {
        AddKeepsKeyOrder(deals, ds[0]);
      }
      assert Elems(PostsOf(next)) == Elems(PostsOf(deals)) + {ds[0].post} by {
        AddKeepsKeyOrder(deals, ds[0]);
        if ds[0].post in PostsOf(deals) {
          ElemsAbsorbs(PostsOf(deals), ds[0].post);
        } else {
          ElemsAppend(PostsOf(deals), ds[0].post);
        }
      }
      assert Elems(PostsOf(ds)) == {ds[0].post} + Elems(PostsOf(ds[1..])) by {
        KeysOfNonEmpty(ds);
      }
      assert Sightings(next) == Sightings(deals) + |ds[0].searches| by {
        AddKeepsSightings(deals, ds[0]);
      }
    }
  }

  lemma {:induction false} AddAllConcat(deals: seq<Deal>, a: seq<Deal>, b: seq<Deal>)
    ensures AddAll(AddAll(deals, a), b) == AddAll(deals, a + b)
    decreases |a|
  {
    if |a| == 0 {
      assert a + b == b;
    } else {
      var next := Add(deals, a[0]);
      AddAllConcat(next, a[1..], b);
      ConsOfConcat(a, b);
      assert AddAll(deals, a + b) == AddAll(next, a[1..] + b);
    }
  }

  // ---------------------------------------------------------------------
  // Which searches each entry carries
  // ---------------------------------------------------------------------

  /** The searches that the entries of `ds` for post `p` carry, concatenated
      in list order: what a deal for `p` should carry after adding `ds`. */
  function SearchesFor(ds: seq<Deal>, p: Post): seq<WatchedSearch>
    decreases |ds|
  {
    if |ds| == 0 then []
    else
      var last := ds[|ds| - 1];
      SearchesFor(ds[..|ds| - 1], p) + (if last.post == p then last.searches else [])
  }

  lemma SearchesForAppend(ds: seq<Deal>, d: Deal, p: Post)
    ensures SearchesFor(ds + [d], p) == SearchesFor(ds, p) + (if d.post == p then d.searches else [])
  {
    assert (ds + [d])[..|ds|] == ds;
  }

  lemma {:induction false} SearchesForAbsent(ds: seq<Deal>, p: Post)
    requires p !in PostsOf(ds)
    ensures SearchesFor(ds, p) == []
    decreases |ds|
  {
    if |ds| > 0 {
      var init := ds[..|ds| - 1];
      assert PostsOf(init) == PostsOf(ds)[..|ds| - 1];
      assert ds[|ds| - 1].post == PostsOf(ds)[|ds| - 1];
      SearchesForAbsent(init, p);
    }
  }

  /** `deals` is what adding the history `hist` produced: one entry per post,
      every post of the history listed, and each entry carrying exactly the
      searches the history attributes to its post, in order. */
  predicate Attributes(deals: seq<Deal>, hist: seq<Deal>) {
    && NoDup(PostsOf(deals))
    && (forall j :: 0 <= j < |deals| ==> deals[j].searches == SearchesFor(hist, deals[j].post))
    && (forall p :: p in PostsOf(hist) ==> p in PostsOf(deals))
  }

  /** One `add` extends the history by the added deal. */
  lemma AddAttributes(deals: seq<Deal>, d: Deal, hist: seq<Deal>)
    requires Attributes(deals, hist)
    ensures Attributes(Add(deals, d), hist + [d])
  {
    var r := Add(deals, d);
    var h := hist + [d];
    AddKeepsKeyOrder(deals, d);
    AddKeepsKeysUnique(deals, d);
    assert PostsOf(h) == PostsOf(hist) + [d.post] by {
      PostsOfConcat(hist, [d]);
    }
    forall j | 0 <= j < |r|
      ensures r[j].searches == SearchesFor(h, r[j].post)
    {
      SearchesForAppend(hist, d, r[j].post);
      if d.post in PostsOf(deals) {
        var k := IndexOf(PostsOf(deals), d.post);
        if j != k {
          assert PostsOf(deals)[j] != PostsOf(deals)[k];
        }
      } else if j < |deals| {
        assert PostsOf(deals)[j] == deals[j].post;
      } else {
        SearchesForAbsent(hist, d.post);
      }
    }
  }

  /** Adding a sequence of deals extends the history by all of them. */
  lemma {:induction false} AddAllAttributes(deals: seq<Deal>, ds: seq<Deal>, hist: seq<Deal>)
    requires Attributes(deals, hist)
    ensures Attributes(AddAll(deals, ds), hist + ds)
    decreases |ds|
  {
    if |ds| == 0 {
      assert hist + ds == hist;
    } else {
      AddAttributes(deals, ds[0], hist);
      AddAllAttributes(Add(deals, ds[0]), ds[1..], hist + [ds[0]]);
      AppendAssoc(hist, ds[0], ds[1..]);
      assert [ds[0]] + ds[1..] == ds;
    }
  }

  /** Starting from no deals, every entry carries the searches of all the
      added deals for its post, in the order they were added. */
  lemma AddAllAttribution(ds: seq<Deal>)
    ensures forall j :: 0 <= j < |AddAll([], ds)| ==>
      AddAll([], ds)[j].searches == SearchesFor(ds, AddAll([], ds)[j].post)
  {
    AddAllAttributes([], ds, []);
    assert [] + ds == ds;
  }
}

=== FILE: formatting.dfy ===
/** The attribution clause of a deal's notification title
    (`RedditDeal._format_searches_str`): the labels of the searches that
    found the deal, lower-cased, the first one capitalised, joined in
    Oxford-comma style. */
module Formatting {
  import opened Ascii
  import opened Searches

  function Labels(searches: seq<WatchedSearch>): (r: seq<string>)
    ensures |r| == |searches|
    ensures forall i :: 0 <= i < |searches| ==> r[i] == searches[i].title
  {
    seq(|searches|, i requires 0 <= i < |searches| => searches[i].title)
  }

  /** The reference definition: the first label capitalised, then the tail. */
  function Attribution(labels: seq<string>): string {
    if |labels| == 0 then "" else Capitalize(Lower(labels[0])) + OxfordTail(labels[1..])
  }

  /** The labels after the first: each but the last after ", ", the last
      after ", and ". */
  function OxfordTail(rest: seq<string>): string
    decreases |rest|
  {
    if |rest| == 0 then ""
    else if |rest| == 1 then ", and " + Lower(rest[0])
    else ", " + Lower(rest[0]) + OxfordTail(rest[1..])
  }

  /** Plain comma joining of the labels after the first (no "and"). */
  function CommaTail(rest: seq<string>): string
    decreases |rest|
  {
    if |rest| == 0 then "" else ", " + Lower(rest[0]) + CommaTail(rest[1..])
  }

  // ---------------------------------------------------------------------
  // The source's loop, and its equivalence with the reference definition
  // ---------------------------------------------------------------------

  /** What iteration `i` of the source loop appends. */
  function Piece(labels: seq<string>, i: nat): string
    requires i < |labels|
  {
    if i == 0 then Capitalize(Lower(labels[i]))
    else if i == |labels| - 1 then ", and " + Lower(labels[i])
    else ", " + Lower(labels[i])
  }

  /** What iterations `i` to the end append. */
  function Remaining(labels: seq<string>, i: nat): string
    requires i <= |labels|
    decreases |labels| - i
  {
    if i == |labels| then "" else Piece(labels, i) + Remaining(labels, i + 1)
  }

  lemma {:induction false} RemainingIsTail(labels: seq<string>, i: nat)
    requires 1 <= i <= |labels|
    ensures Remaining(labels, i) == OxfordTail(labels[i..])
    decreases |labels| - i
  {
    if i < |labels| {
      var rest := labels[i..];
      assert rest[0] == labels[i];
      if i == |labels| - 1 {
        assert |rest| == 1;
        assert Remaining(labels, i) == ", and " + Lower(labels[i]) + "";
      } else {
        RemainingIsTail(labels, i + 1);
        assert rest[1..] == labels[i + 1..];
        assert Remaining(labels, i) == ", " + Lower(labels[i]) + OxfordTail(labels[i + 1..]);
      }
    }
  }

  lemma RemainingIsAttribution(labels: seq<string>)
    ensures Remaining(labels, 0) == Attribution(labels)
  {
    if |labels| > 0 {
      RemainingIsTail(labels, 1);
    }
  }

  /** `_format_searches_str`, loop for loop. */
  method FormatSearchesStr(searches: seq<WatchedSearch>) returns (out: string)
    ensures out == Attribution(Labels(searches))
  {
    ghost var labels := Labels(searches);
    RemainingIsAttribution(labels);
    out := "";
    var length := |searches|;
    for i := 0 to length
      invariant out + Remaining(labels, i) == Attribution(labels)
    {
      var sTitle := Lower(searches[i].title);
      ghost var before := out;
      if i == 0 {
        out := out + Capitalize(sTitle);
        assert out == before + Piece(labels, i);
      } else if i == length - 1 {
        out := out + (", and " + sTitle);
        assert out == before + Piece(labels, i);
      } else {
        out := out + (", " + sTitle);
        assert out == before + Piece(labels, i);
      }
      AppendPiece(before, labels, i);
    }
  }

  lemma AppendPiece(before: string, labels: seq<string>, i: nat)
    requires i < |labels|
    ensures before + Piece(labels, i) + Remaining(labels, i + 1) == before + Remaining(labels, i)
  {
  }

  // ---------------------------------------------------------------------
  // Properties of the attribution clause
  // ---------------------------------------------------------------------

  /** No searches give the empty clause; one search gives its label,
      capitalised; two give "A, and b". */
  lemma AttributionSmallCases(labels: seq<string>)
    ensures |labels| == 0 ==> Attribution(labels) == ""
    ensures |labels| == 1 ==> Attribution(labels) == Capitalize(labels[0])
    ensures |labels| == 2 ==>
      Attribution(labels) == Capitalize(labels[0]) + ", and " + Lower(labels[1])
  {
    if |labels| > 0 {
      CapitalizeIgnoresCase(labels[0]);
    }
  }

  lemma {:induction false} OxfordTailSplitsLast(rest: seq<string>)
    requires |rest| >= 1
    ensures OxfordTail(rest) == CommaTail(rest[..|rest| - 1]) + ", and " + Lower(rest[|rest| - 1])
    decreases |rest|
  {
    if |rest| > 1 {
      OxfordTailSplitsLast(rest[1..]);
      assert rest[1..][..|rest[1..]| - 1] == rest[..|rest| - 1][1..];
    }
  }

  /** With two or more searches, every label but the last is joined by ", "
      and the last by ", and ". */
  lemma OxfordComma(labels: seq<string>)
    requires |labels| >= 2
    ensures Attribution(labels) ==
      Capitalize(labels[0]) + CommaTail(labels[1..|labels| - 1]) + ", and " + Lower(labels[|labels| - 1])
  {
    var rest := labels[1..];
    var head := Capitalize(labels[0]);
    var middle := CommaTail(labels[1..|labels| - 1]);
    var last := Lower(labels[|labels| - 1]);
    CapitalizeIgnoresCase(labels[0]);
    OxfordTailSplitsLast(rest);
    assert rest[..|rest| - 1] == labels[1..|labels| - 1];
    assert rest[|rest| - 1] == labels[|labels| - 1];
    assert OxfordTail(rest) == middle + ", and " + last;
    assert Attribution(labels) == head + OxfordTail(rest);
  }

  lemma {:induction false} OxfordTailHasNoUpper(rest: seq<string>)
    ensures NoUpper(OxfordTail(rest))
    decreases |rest|
  {
    if |rest| == 1 {
      LowerHasNoUpper(rest[0]);
    } else if |rest| > 1 {
      LowerHasNoUpper(rest[0]);
      OxfordTailHasNoUpper(rest[1..]);
    }
  }

  /** Only the first character of the clause can be an upper-case letter. */
  lemma OnlyFirstLetterUpper(labels: seq<string>)
    ensures forall i :: 1 <= i < |Attribution(labels)| ==> !IsUpper(Attribution(labels)[i])
  {
    if |labels| > 0 {
      var head := Capitalize(Lower(labels[0]));
      var tail := OxfordTail(labels[1..]);
      OxfordTailHasNoUpper(labels[1..]);
      CapitalizeTailHasNoUpper(Lower(labels[0]));
      forall i | 1 <= i < |head + tail|
        ensures !IsUpper((head + tail)[i])
      {
        if i >= |head| {
          assert (head + tail)[i] == tail[i - |head|];
        } else {
          assert (head + tail)[i] == head[1..][i - 1];
        }
      }
    }
  }

  lemma {:induction false} OxfordTailIgnoresCase(a: seq<string>, b: seq<string>)
    requires |a| == |b|
    requires forall i :: 0 <= i < |a| ==> Lower(a[i]) == Lower(b[i])
    ensures OxfordTail(a) == OxfordTail(b)
    decreases |a|
  {
    if |a| > 1 {
      OxfordTailIgnoresCase(a[1..], b[1..]);
    }
  }

  /** The clause depends only on the lower-cased labels: "Deals" and "DEALS"
      attribute alike. */
  lemma AttributionIgnoresCase(a: seq<string>, b: seq<string>)
    requires |a| == |b|
    requires forall i :: 0 <= i < |a| ==> Lower(a[i]) == Lower(b[i])
    ensures Attribution(a) == Attribution(b)
  {
    if |a| > 0 {
      OxfordTailIgnoresCase(a[1..], b[1..]);
    }
  }

  /** One search labelled "Deals" attributes as "Deals". */
  lemma OneLabelExample()
    ensures Attribution(["Deals"]) == "Deals"
  {
    AttributionSmallCases(["Deals"]);
  }

  /** "Deals" and "Sales" attribute as "Deals, and sales". */
  lemma TwoLabelExample()
    ensures Attribution(["Deals", "Sales"]) == "Deals, and sales"
  {
    var labels := ["Deals", "Sales"];
    assert Capitalize(Lower("Deals")) == "Deals" by {
      assert Lower("Deals") == "deals";
      assert Capitalize("deals") == [UpperChar('d')] + Lower("eals");
    }
    assert OxfordTail(labels[1..]) == ", and sales" by {
      assert labels[1..] == ["Sales"];
      assert Lower("Sales") == "sales";
    }
  }

  /** "A", "B" and "C" attribute as "A, b, and c". */
  lemma ThreeLabelExample()
    ensures Attribution(["A", "B", "C"]) == "A, b, and c"
  {
    var labels := ["A", "B", "C"];
    assert Capitalize(Lower("A")) == "A" by {
      assert Lower("A") == "a";
      assert Capitalize("a") == [UpperChar('a')] + Lower("");
    }
    assert OxfordTail(["C"]) == ", and c" by {
      assert Lower("C") == "c";
    }
    assert OxfordTail(labels[1..]) == ", b, and c" by {
      assert labels[1..] == ["B", "C"] && ["B", "C"][1..] == ["C"];
      assert Lower("B") == "b";
    }
  }
}

=== FILE: json.dfy ===
/** The decoded JSON values the Reddit API returns, and the two Python
    operations the model applies to them: dict subscripting and `int()`. */
module Json {
  import opened Wrappers
  import opened PyErrors

  datatype Json =
    | JNull
    | JBool(b: bool)
    | JInt(i: int)
    | JReal(x: real)
    | JStr(s: string)
    | JArr(items: seq<Json>)
    | JObj(fields: map<string, Json>)

  /** `v[key]` for a value that is meant to be a dict. */
  function Subscript(v: Json, key: string): (r: Result<Json, PyError>)
    ensures r.Success? <==> v.JObj? && key in v.fields
    ensures r.Success? ==> r.value == v.fields[key]
    ensures v.JObj? && key !in v.fields ==> r == Failure(KeyError(key))
    ensures !v.JObj? ==> r.Failure? && r.error.TypeError?
  {
    match v
    case JObj(fields) =>
      if key in fields then Success(fields[key]) else Failure(KeyError(key))
    case _ => Failure(TypeError("object is not subscriptable by a str"))
  }

  // ---------------------------------------------------------------------
  // Python's int() on a JSON value
  // ---------------------------------------------------------------------

  /** The ASCII white space `int()` skips around a literal: space, tab,
      line feed, vertical tab, form feed and carriage return. */
  predicate IsSpace(c: char) {
    c == ' ' || c == '\t' || c == '\n' || c == '\r' || c == '\U{0B}' || c == '\U{0C}'
  }

  predicate IsDigit(c: char) {
    '0' <= c <= '9'
  }

  predicate AllDigits(s: string) {
    forall i :: 0 <= i < |s| ==> IsDigit(s[i])
  }

  /** Drop the leading and trailing white space `int()` skips. */
  function Strip(s: string): (r: string)
    ensures |r| <= |s|
    ensures |r| > 0 ==> !IsSpace(r[0]) && !IsSpace(r[|r| - 1])
    decreases |s|
  {
    if |s| == 0 then s
    else if IsSpace(s[0]) then Strip(s[1..])
    else if IsSpace(s[|s| - 1]) then Strip(s[..|s| - 1])
    else s
  }

  /** The value of a string of decimal digits, most significant first. */
  function DigitsValue(s: string): (n: nat)
    requires AllDigits(s)
    decreases |s|
  {
    if |s| == 0 then 0
    else DigitsValue(s[..|s| - 1]) * 10 + (s[|s| - 1] as int - '0' as int)
  }

  /** What `int()` accepts once the white space is stripped: an optional
      sign followed by one or more decimal digits. */
  predicate IntLiteral(t: string) {
    && |t| > 0
    && (IsDigit(t[0]) || ((t[0] == '-' || t[0] == '+') && |t| > 1))
    && forall i :: 0 < i < |t| ==> IsDigit(t[i])
  }

  /** `int(s)` for a str: optional white space, an optional sign, then one or
      more decimal digits; anything else raises ValueError. */
  function ParseInt(s: string): (r: Result<int, PyError>)
    ensures r.Success? <==> IntLiteral(Strip(s))
    ensures r.Failure? ==> r.error.ValueError?
    ensures |s| > 0 && AllDigits(s) ==> r == Success(DigitsValue(s))
    ensures Strip(s) == "" ==> r.Failure?
  {
    var t := Strip(s);
    var digits := if |t| > 0 && (t[0] == '-' || t[0] == '+') then t[1..] else t;
    if |digits| > 0 && AllDigits(digits) then
      var magnitude: int := DigitsValue(digits);
      Success(if t[0] == '-' then -magnitude else magnitude)
    else
      Failure(ValueError("invalid literal for int() with base 10"))
  }

  /** Python's `int(x)` with `x` a decoded JSON value: ints pass through, a
      bool counts as 0 or 1, a float truncates toward zero, a str is parsed,
      and anything else raises TypeError. */
  function ToInt(v: Json): (r: Result<int, PyError>)
    ensures v.JInt? ==> r == Success(v.i)
    ensures v.JBool? ==> r == Success(if v.b then 1 else 0)
    ensures v.JReal? ==> r.Success?
    ensures v.JReal? ==> (if r.value >= 0 then r.value else -r.value) as real <= (if v.x >= 0.0 then v.x else -v.x)
    ensures v.JReal? ==> (if v.x >= 0.0 then v.x else -v.x) < (if r.value >= 0 then r.value else -r.value) as real + 1.0
    ensures v.JReal? && v.x >= 0.0 ==> r.value >= 0
    ensures v.JReal? && v.x <= 0.0 ==> r.value <= 0
    ensures v.JStr? ==> r == ParseInt(v.s)
    ensures v.JNull? || v.JArr? || v.JObj? ==> r.Failure? && r.error.TypeError?
  {
    match v
    case JInt(i) => Success(i)
    case JBool(b) => Success(if b then 1 else 0)
    case JReal(x) => Success(if x >= 0.0 then x.Floor else -((-x).Floor))
    case JStr(s) => ParseInt(s)
    case _ => Failure(TypeError("int() argument must be a string or a real number"))
  }

  // ---------------------------------------------------------------------
  // Python's str() on an int, the partner of ParseInt
  // ---------------------------------------------------------------------

  function DigitChar(d: nat): (c: char)
    requires d < 10
    ensures IsDigit(c)
  {
    ('0' as int + d) as char
  }

  /** The decimal digits of `n`, without leading zeros. */
  function Digits(n: nat): (s: string)
    ensures |s| > 0 && AllDigits(s)
    decreases n
  {
    if n < 10 then [DigitChar(n)] else Digits(n / 10) + [DigitChar(n % 10)]
  }

  /** `str(n)` */
  function DecimalString(n: int): string {
    if n < 0 then "-" + Digits(-n) else Digits(n)
  }

  lemma {:induction false} DigitsRoundTrip(n: nat)
    ensures DigitsValue(Digits(n)) == n
    decreases n
  {
    var s := Digits(n);
    if n >= 10 {
      DigitsRoundTrip(n / 10);
      assert s[..|s| - 1] == Digits(n / 10);
    }
  }

  lemma StripNoSpace(s: string)
    requires |s| > 0 && !IsSpace(s[0]) && !IsSpace(s[|s| - 1])
    ensures Strip(s) == s
  {
  }

  /** `int()` rejects a float literal, a word, and a digit behind a
      control character it does not count as white space. */
  lemma ParseRejectsExamples()
    ensures ParseInt("1.5") == Failure(ValueError("invalid literal for int() with base 10"))
    ensures ParseInt("abc").Failure?
    ensures ParseInt("\U{1C}5").Failure?
  {
    assert Strip("1.5") == "1.5";
    assert !IntLiteral("1.5") by {
      assert !IsDigit("1.5"[1]);
    }
    assert !IntLiteral(Strip("abc"));
    assert Strip("\U{1C}5") == "\U{1C}5";
  }

  /** `int()` accepts a signed literal inside tabs and spaces. */
  lemma ParseAcceptsExample()
    ensures ParseInt("\t-42 ") == Success(-42)
  {
    assert Strip("\t-42 ") == "-42" by {
      assert "\t-42 "[1..] == "-42 ";
      assert "-42 "[..3] == "-42";
    }
    assert "-42"[1..] == "42";
    assert DigitsValue("42") == 42 by {
      assert "42"[..1] == "4";
    }
  }

  /** `int(str(n)) == n` for every integer `n`. */
  lemma ParseDecimalString(n: int)
    ensures ParseInt(DecimalString(n)) == Success(n)
  {
    var s := DecimalString(n);
    StripNoSpace(s);
    if n < 0 {
      assert s[1..] == Digits(-n);
      DigitsRoundTrip(-n);
    } else {
      DigitsRoundTrip(n);
    }
  }

  predicate AllSpace(s: string) {
    forall i :: 0 <= i < |s| ==> IsSpace(s[i])
  }

  /** Trailing white space is stripped away, whatever precedes it. */
  lemma {:induction false} StripIgnoresSuffix(s: string, suf: string)
    requires AllSpace(suf)
    ensures Strip(s + suf) == Strip(s)
    decreases |s| + |suf|
  {
    var p := s + suf;
    if |s| == 0 {
      assert p == suf;
      if |suf| > 0 {
        assert p[1..] == "" + suf[1..];
        StripIgnoresSuffix("", suf[1..]);
      }
    } else if IsSpace(s[0]) {
      assert p[1..] == s[1..] + suf;
      StripIgnoresSuffix(s[1..], suf);
    } else if |suf| > 0 {
      assert p[..|p| - 1] == s + suf[..|suf| - 1];
      StripIgnoresSuffix(s, suf[..|suf| - 1]);
    } else {
      assert p == s;
    }
  }

  /** Leading white space is stripped away too. */
  lemma {:induction false} StripIgnoresPadding(pre: string, s: string, suf: string)
    requires AllSpace(pre) && AllSpace(suf)
    ensures Strip(pre + s + suf) == Strip(s)
    decreases |pre|
  {
    if |pre| == 0 {
      assert pre + s + suf == s + suf;
      StripIgnoresSuffix(s, suf);
    } else {
      assert (pre + s + suf)[1..] == pre[1..] + s + suf;
      StripIgnoresPadding(pre[1..], s, suf);
    }
  }

  /** White space around a literal does not change what `int()` reads. */
  lemma ParseIgnoresPadding(pre: string, s: string, suf: string)
    requires AllSpace(pre) && AllSpace(suf)
    ensures ParseInt(pre + s + suf) == ParseInt(s)
  {
    StripIgnoresPadding(pre, s, suf);
  }
}

=== FILE: lists.dfy ===
/** The Python list operations `Deals.add` uses, on immutable sequences. */
module Lists {

  /** No element occurs twice. */
  predicate NoDup<T(==)>(s: seq<T>) {
    forall i, j :: 0 <= i < j < |s| ==> s[i] != s[j]
  }

  /** The elements of `s`, as a set. */
  function Elems<T>(s: seq<T>): set<T> {
    set x | x in s
  }

  /** `s.index(x)`: the position of the first occurrence of `x`. */
  function IndexOf<T(==)>(s: seq<T>, x: T): (i: nat)
    requires x in s
    ensures i < |s| && s[i] == x
    ensures forall j :: 0 <= j < i ==> s[j] != x
    decreases |s|
  {
    if s[0] == x then 0 else 1 + IndexOf(s[1..], x)
  }

  /** In a list without duplicates the first occurrence is the only one. */
  lemma IndexOfUnique<T>(s: seq<T>, x: T, k: nat)
    requires NoDup(s) && k < |s| && s[k] == x
    ensures IndexOf(s, x) == k
  {
  }

  /** `s.pop(i)`, the list that remains. */
  function Pop<T>(s: seq<T>, i: nat): (r: seq<T>)
    requires i < |s|
    ensures |r| == |s| - 1
    ensures forall j :: 0 <= j < i ==> r[j] == s[j]
    ensures forall j :: i <= j < |r| ==> r[j] == s[j + 1]
  {
    s[..i] + s[i + 1..]
  }

  /** `s.insert(i, x)` */
  function Insert<T>(s: seq<T>, i: nat, x: T): (r: seq<T>)
    requires i <= |s|
    ensures |r| == |s| + 1
    ensures r[i] == x
    ensures forall j :: 0 <= j < i ==> r[j] == s[j]
    ensures forall j :: i < j < |r| ==> r[j] == s[j - 1]
  {
    s[..i] + [x] + s[i..]
  }

  /** Popping position `i` and inserting at the same position replaces the
      element in place. */
  lemma PopThenInsert<T>(s: seq<T>, i: nat, x: T)
    requires i < |s|
    ensures Insert(Pop(s, i), i, x) == s[i := x]
  {
    var r := Insert(Pop(s, i), i, x);
    assert forall j :: 0 <= j < |s| ==> r[j] == s[i := x][j];
  }

  lemma ConsOfConcat<T>(a: seq<T>, b: seq<T>)
    requires |a| > 0
    ensures (a + b)[0] == a[0] && (a + b)[1..] == a[1..] + b
  {
  }

  lemma AppendAssoc<T>(a: seq<T>, x: T, b: seq<T>)
    ensures a + [x] + b == a + ([x] + b)
  {
  }

  lemma ElemsAppend<T>(s: seq<T>, x: T)
    ensures Elems(s + [x]) == Elems(s) + {x}
  {
  }

  lemma ElemsAbsorbs<T>(s: seq<T>, x: T)
    requires x in s
    ensures Elems(s) == Elems(s) + {x}
  {
  }
}

=== FILE: polling.dfy ===
/** One polling cycle (`main`): each saved search is fetched, the posts newer
    than its cursor are wrapped as deals and merged into one shared deal
    list, and the search's cursor moves to the time taken just before its
    fetch. The deal list is pushed once every search has been handled. */
module Polling {
  import opened Wrappers
  import opened PyErrors
  import opened Lists
  import opened Posts
  import opened Searches
  import opened Deals

  // ---------------------------------------------------------------------
  // One search
  // ---------------------------------------------------------------------

  /** The posts a search reports as new. The result list is walked from the
      front and the walk stops at the first post older than the cursor, so
      the answer is the longest prefix none of whose posts is older than
      `lastRun`. */
  function Fresh(results: seq<Post>, lastRun: int): (r: seq<Post>)
    ensures |r| <= |results| && r == results[..|r|]
    ensures forall i :: 0 <= i < |r| ==> r[i].postedUtc >= lastRun
    ensures |r| < |results| ==> results[|r|].postedUtc < lastRun
    decreases |results|
  {
    if |results| == 0 || results[0].postedUtc < lastRun then []
    else [results[0]] + Fresh(results[1..], lastRun)
  }

  /** Nothing at or after the first post older than the cursor is reported,
      however new the later posts are. */
  lemma StopsAtFirstStale(results: seq<Post>, lastRun: int, k: nat)
    requires k < |results| && results[k].postedUtc < lastRun
    ensures |Fresh(results, lastRun)| <= k
  {
  }

  /** A cursor no later than every post (a search that has never run, with
      its cursor at the epoch) reports the whole page. */
  lemma WholePageWhenNoneStale(results: seq<Post>, lastRun: int)
    requires forall i :: 0 <= i < |results| ==> results[i].postedUtc >= lastRun
    ensures Fresh(results, lastRun) == results
  {
  }

  /** The provider's ordering: newest post first. */
  predicate NewestFirst(results: seq<Post>) {
    forall i, j :: 0 <= i < j < |results| ==> results[i].postedUtc >= results[j].postedUtc
  }

  /** Every post not older than the cursor, wherever it stands in the list. */
  function NotOlder(results: seq<Post>, lastRun: int): (r: seq<Post>)
    decreases |results|
  {
    if |results| == 0 then []
    else (if results[0].postedUtc >= lastRun then [results[0]] else []) + NotOlder(results[1..], lastRun)
  }

  lemma {:induction false} NotOlderOfStale(results: seq<Post>, lastRun: int)
    requires forall i :: 0 <= i < |results| ==> results[i].postedUtc < lastRun
    ensures NotOlder(results, lastRun) == []
    decreases |results|
  {
    if |results| > 0 {
      NotOlderOfStale(results[1..], lastRun);
    }
  }

  /** On a newest-first list, stopping at the first stale post loses nothing:
      the prefix is exactly the set of posts not older than the cursor. */
  lemma {:induction false} NewestFirstTruncationIsFilter(results: seq<Post>, lastRun: int)
    requires NewestFirst(results)
    ensures Fresh(results, lastRun) == NotOlder(results, lastRun)
    decreases |results|
  {
    if |results| > 0 {
      if results[0].postedUtc < lastRun {
        NotOlderOfStale(results, lastRun);
      } else {
        NewestFirstTruncationIsFilter(results[1..], lastRun);
      }
    }
  }

  /** The wrapped search after its cycle: the cursor is the time captured
      before the fetch. */
  function Advance(search: WatchedSearch, now: int): WatchedSearch {
    search.(lastRunUtc := now)
  }

  /** The body of `main`'s loop for one search, as a pure function of the
      fetched results, the search (with its cursor) and the time read before
      the fetch. It gives the deals to add, in result order, and the search
      with its new cursor. The deals hold the advanced search because the
      Python deal refers to the same search object whose cursor is then set;
      only its title is read later. */
  function PollSearch(search: WatchedSearch, results: seq<Post>, now: int): (r: (seq<Deal>, WatchedSearch))
    ensures r.1.lastRunUtc == now
    ensures r.1 == search.(lastRunUtc := now)
    ensures |r.0| <= |results|
    ensures forall i :: 0 <= i < |r.0| ==>
      r.0[i] == NewDeal(r.1, results[i]) && results[i].postedUtc >= search.lastRunUtc
    ensures |r.0| < |results| ==> results[|r.0|].postedUtc < search.lastRunUtc
  {
    var advanced := Advance(search, now);
    var newPosts := Fresh(results, search.lastRunUtc);
    (seq(|newPosts|, i requires 0 <= i < |newPosts| => NewDeal(advanced, newPosts[i])), advanced)
  }

  /** A worked example: with the cursor at `t0`, a post 30 seconds newer
      is reported, one 10 seconds older is not, and the cursor moves to the
      time the cycle read, whatever the results were. */
  lemma CursorScenario(search: WatchedSearch, u1: Post, u2: Post, t1: int)
    requires u1.postedUtc == search.lastRunUtc + 30
    requires u2.postedUtc == search.lastRunUtc - 10
    ensures PollSearch(search, [u1, u2], t1).0 == [NewDeal(Advance(search, t1), u1)]
    ensures PollSearch(search, [u1, u2], t1).1.lastRunUtc == t1
    ensures PollSearch(search, [], t1) == ([], Advance(search, t1))
  {
    assert Fresh([u1, u2], search.lastRunUtc) == [u1];
  }

  // ---------------------------------------------------------------------
  // The whole cycle
  // ---------------------------------------------------------------------

  /** One search as the cycle meets it: the stored row, the time read just
      before its fetch, and what the fetch produced (posts, or the exception
      `search.result` raised). */
  datatype SearchRun = SearchRun(search: WatchedSearch, now: int, fetched: Result<seq<Post>, PyError>)

  /** A cycle either runs to the end with its deals built, or an exception in
      some fetch ends `main` early: rows saved before it keep their new
      cursors. `saved` lists every row as stored after the cycle, in
      iteration order. */
  datatype CycleOutcome =
    | Completed(deals: seq<Deal>, saved: seq<WatchedSearch>)
    | Aborted(error: PyError, saved: seq<WatchedSearch>)

  /** What a cycle pushes: every deal, in list order, once the loop over the
      searches is done; nothing when an exception ended it first. */
  function Sent(outcome: CycleOutcome): (r: seq<Push>)
    ensures outcome.Aborted? ==> r == []
    ensures outcome.Completed? ==> r == Pushes(outcome.deals)
  {
    if outcome.Completed? then Pushes(outcome.deals) else []
  }

  function Rows(runs: seq<SearchRun>): (r: seq<WatchedSearch>)
    ensures |r| == |runs|
    ensures forall i :: 0 <= i < |runs| ==> r[i] == runs[i].search
  {
    seq(|runs|, i requires 0 <= i < |runs| => runs[i].search)
  }

  /** The remaining searches, from `runs` on, with `deals` built and `saved`
      stored so far. */
  function CycleFrom(runs: seq<SearchRun>, deals: seq<Deal>, saved: seq<WatchedSearch>): CycleOutcome
    decreases |runs|
  {
    if |runs| == 0 then
      Completed(deals, saved)
    else if runs[0].fetched.Failure? then
      Aborted(runs[0].fetched.error, saved + Rows(runs))
    else
      var polled := PollSearch(runs[0].search, runs[0].fetched.value, runs[0].now);
      CycleFrom(runs[1..], AddAll(deals, polled.0), saved + [polled.1])
  }

  /** `main`, from an empty deal list. */
  function Cycle(runs: seq<SearchRun>): CycleOutcome {
    CycleFrom(runs, [], [])
  }

  /** The position of the first failed fetch, or `|runs|` when none failed. */
  function FirstFailure(runs: seq<SearchRun>): (k: nat)
    ensures k <= |runs|
    ensures forall i :: 0 <= i < k ==> runs[i].fetched.Success?
    ensures k < |runs| ==> runs[k].fetched.Failure?
    decreases |runs|
  {
    if |runs| == 0 || runs[0].fetched.Failure? then 0 else 1 + FirstFailure(runs[1..])
  }

  lemma {:induction false} NoFailureRunsToEnd(runs: seq<SearchRun>)
    requires forall i :: 0 <= i < |runs| ==> runs[i].fetched.Success?
    ensures FirstFailure(runs) == |runs|
    decreases |runs|
  {
    if |runs| > 0 {
      assert runs[0].fetched.Success?;
      NoFailureRunsToEnd(runs[1..]);
    }
  }

  /** The rows as stored when the first `k` searches have been handled. */
  function StoredAfter(runs: seq<SearchRun>, k: nat): (r: seq<WatchedSearch>)
    requires k <= |runs|
    ensures |r| == |runs|
    decreases k
  {
    if k == 0 then Rows(runs)
    else [Advance(runs[0].search, runs[0].now)] + StoredAfter(runs[1..], k - 1)
  }

  /** The first `k` rows carry their new cursors, the rest are unchanged. */
  lemma {:induction false} StoredAfterAt(runs: seq<SearchRun>, k: nat, i: nat)
    requires k <= |runs| && i < |runs|
    ensures i < k ==> StoredAfter(runs, k)[i] == Advance(runs[i].search, runs[i].now)
    ensures k <= i ==> StoredAfter(runs, k)[i] == runs[i].search
    decreases k
  {
    if k > 0 && i > 0 {
      StoredAfterAt(runs[1..], k - 1, i - 1);
    }
  }

  /** The deals the searches before `k` contribute, in iteration order. */
  function Found(runs: seq<SearchRun>, k: nat): seq<Deal>
    requires k <= FirstFailure(runs)
    decreases k
  {
    if k == 0 then []
    else
      var run := runs[k - 1];
      Found(runs, k - 1) + PollSearch(run.search, run.fetched.value, run.now).0
  }

  lemma FoundPrefix(runs: seq<SearchRun>, k: nat)
    requires 0 < k <= FirstFailure(runs)
    ensures FirstFailure(runs[1..]) == FirstFailure(runs) - 1
    ensures Found(runs, k) ==
      PollSearch(runs[0].search, runs[0].fetched.value, runs[0].now).0 + Found(runs[1..], k - 1)
    decreases k
  {
    if k > 1 {
      FoundPrefix(runs, k - 1);
    }
  }

  lemma {:induction false} CycleFromOutcome(runs: seq<SearchRun>, deals: seq<Deal>, saved: seq<WatchedSearch>)
    ensures CycleFrom(runs, deals, saved).Completed? <==> FirstFailure(runs) == |runs|
    ensures CycleFrom(runs, deals, saved).Aborted? ==>
      CycleFrom(runs, deals, saved).error == runs[FirstFailure(runs)].fetched.error
    decreases |runs|
  {
    if |runs| > 0 && runs[0].fetched.Success? {
      var polled := PollSearch(runs[0].search, runs[0].fetched.value, runs[0].now);
      CycleFromOutcome(runs[1..], AddAll(deals, polled.0), saved + [polled.1]);
    }
  }

  lemma {:induction false} CycleFromSaved(runs: seq<SearchRun>, deals: seq<Deal>, saved: seq<WatchedSearch>)
    ensures CycleFrom(runs, deals, saved).saved == saved + StoredAfter(runs, FirstFailure(runs))
    decreases |runs|
  {
    if |runs| == 0 {
    } else if runs[0].fetched.Failure? {
      assert StoredAfter(runs, 0) == Rows(runs);
    } else {
      var polled := PollSearch(runs[0].search, runs[0].fetched.value, runs[0].now);
      var advanced := Advance(runs[0].search, runs[0].now);
      var rest := runs[1..];
      var next := AddAll(deals, polled.0);
      var k := FirstFailure(runs);
      var tail := StoredAfter(rest, FirstFailure(rest));
      assert CycleFrom(runs, deals, saved) == CycleFrom(rest, next, saved + [advanced]) by {
        assert polled.1 == advanced;
      }
      assert CycleFrom(rest, next, saved + [advanced]).saved == saved + [advanced] + tail by {
        CycleFromSaved(rest, next, saved + [advanced]);
      }
      assert StoredAfter(runs, k) == [advanced] + tail by {
        assert k == FirstFailure(rest) + 1;
      }
      AppendAssoc(saved, advanced, tail);
    }
  }

  lemma {:induction false} CycleFromDeals(runs: seq<SearchRun>, deals: seq<Deal>, saved: seq<WatchedSearch>)
    requires FirstFailure(runs) == |runs|
    ensures CycleFrom(runs, deals, saved).Completed?
    ensures CycleFrom(runs, deals, saved).deals == AddAll(deals, Found(runs, |runs|))
    decreases |runs|
  {
    if |runs| > 0 {
      var polled := PollSearch(runs[0].search, runs[0].fetched.value, runs[0].now);
      var next := AddAll(deals, polled.0);
      var rest := runs[1..];
      var later := Found(rest, |rest|);
      assert CycleFrom(runs, deals, saved) == CycleFrom(rest, next, saved + [polled.1]) by {
        assert runs[0].fetched.Success?;
      }
      assert CycleFrom(rest, next, saved + [polled.1]).deals == AddAll(next, later) by {
        assert FirstFailure(rest) == |rest|;
        CycleFromDeals(rest, next, saved + [polled.1]);
      }
      assert Found(runs, |runs|) == polled.0 + later by {
        FoundPrefix(runs, |runs|);
      }
      AddAllConcat(deals, polled.0, later);
    }
  }

  /** Cursors: a cycle that completes moves every search's cursor to the time
      read before its own fetch, whatever its results. A cycle that a fetch
      aborts has moved the cursors of the searches before that fetch, and
      leaves the failed search and every later one as it was. */
  lemma CycleCursors(runs: seq<SearchRun>)
    ensures Cycle(runs).Completed? <==> forall i :: 0 <= i < |runs| ==> runs[i].fetched.Success?
    ensures |Cycle(runs).saved| == |runs|
    ensures Cycle(runs).Completed? ==>
      forall i :: 0 <= i < |runs| ==> Cycle(runs).saved[i] == runs[i].search.(lastRunUtc := runs[i].now)
    ensures Cycle(runs).Aborted? ==>
      var k := FirstFailure(runs);
      && k < |runs|
      && Cycle(runs).error == runs[k].fetched.error
      && (forall i :: 0 <= i < k ==> Cycle(runs).saved[i] == runs[i].search.(lastRunUtc := runs[i].now))
      && (forall i :: k <= i < |runs| ==> Cycle(runs).saved[i] == runs[i].search)
  {
    var c := Cycle(runs);
    var k := FirstFailure(runs);
    var stored := StoredAfter(runs, k);
    CycleFromOutcome(runs, [], []);
    CycleFromSaved(runs, [], []);
    assert c.saved == stored by {
      assert [] + stored == stored;
    }
    forall i | 0 <= i < |runs|
      ensures i < k ==> c.saved[i] == Advance(runs[i].search, runs[i].now)
      ensures k <= i ==> c.saved[i] == runs[i].search
    {
      StoredAfterAt(runs, k, i);
    }
    if c.Completed? {
      assert k == |runs|;
    } else {
      assert k < |runs| && runs[k].fetched.Failure?;
    }
  }

  lemma PollSearchPosts(search: WatchedSearch, results: seq<Post>, now: int)
    ensures PostsOf(PollSearch(search, results, now).0) == Fresh(results, search.lastRunUtc)
  {
  }

  /** Search `i` of the cycle fetched successfully and reported `p` as new. */
  predicate ReportedBy(runs: seq<SearchRun>, i: int, p: Post) {
    && 0 <= i < |runs|
    && runs[i].fetched.Success?
    && p in Fresh(runs[i].fetched.value, runs[i].search.lastRunUtc)
  }

  /** Which posts the searches before `k` found. */
  lemma {:induction false} FoundPosts(runs: seq<SearchRun>, k: nat)
    requires k <= FirstFailure(runs)
    ensures forall p :: p in PostsOf(Found(runs, k)) <==> exists i :: 0 <= i < k && ReportedBy(runs, i, p)
    decreases k
  {
    if k > 0 {
      var run := runs[k - 1];
      var found := PollSearch(run.search, run.fetched.value, run.now).0;
      var before := PostsOf(Found(runs, k - 1));
      var reported := Fresh(run.fetched.value, run.search.lastRunUtc);
      assert PostsOf(Found(runs, k)) == before + reported by {
        PollSearchPosts(run.search, run.fetched.value, run.now);
        PostsOfConcat(Found(runs, k - 1), found);
      }
      forall p
        ensures p in PostsOf(Found(runs, k)) <==> exists i :: 0 <= i < k && ReportedBy(runs, i, p)
      {
        assert p in before <==> exists i :: 0 <= i < k - 1 && ReportedBy(runs, i, p) by {
          FoundPosts(runs, k - 1);
        }
        assert p in reported <==> ReportedBy(runs, k - 1, p);
        if exists i :: 0 <= i < k && ReportedBy(runs, i, p) {
          var i :| 0 <= i < k && ReportedBy(runs, i, p);
          assert i < k - 1 ==> p in before;
        }
      }
    }
  }

  /** Each deal a search contributes carries that one search. */
  lemma {:induction false} FoundSightings(runs: seq<SearchRun>, k: nat)
    requires k <= FirstFailure(runs)
    ensures forall i :: 0 <= i < |Found(runs, k)| ==> |Found(runs, k)[i].searches| == 1
    ensures Sightings(Found(runs, k)) == |Found(runs, k)|
    decreases k
  {
    if k > 0 {
      var run := runs[k - 1];
      var before := Found(runs, k - 1);
      var found := PollSearch(run.search, run.fetched.value, run.now).0;
      assert forall i :: 0 <= i < |before| ==> |before[i].searches| == 1 by {
        FoundSightings(runs, k - 1);
      }
      assert forall i :: 0 <= i < |found| ==> |found[i].searches| == 1;
      SingletonsConcat(before, found);
      assert Found(runs, k) == before + found;
      SightingsOfSingletons(Found(runs, k));
    }
  }

  lemma SingletonsConcat(a: seq<Deal>, b: seq<Deal>)
    requires forall i :: 0 <= i < |a| ==> |a[i].searches| == 1
    requires forall i :: 0 <= i < |b| ==> |b[i].searches| == 1
    ensures forall i :: 0 <= i < |a + b| ==> |(a + b)[i].searches| == 1
  {
  }

  lemma {:induction false} SightingsOfSingletons(b: seq<Deal>)
    requires forall i :: 0 <= i < |b| ==> |b[i].searches| == 1
    ensures Sightings(b) == |b|
    decreases |b|
  {
    if |b| > 0 {
      SightingsOfSingletons(b[1..]);
    }
  }

  /** Deduplication: when every fetch succeeds the cycle completes and
      pushes one deal per distinct post; the posts are exactly those some
      search reported as new, every sighting of a post by a search is
      attributed once, each deal carries exactly the searches that reported
      its post, in iteration order, and each deal is pushed once, in list
      order. */
  lemma CycleOneDealPerPost(runs: seq<SearchRun>)
    requires forall i :: 0 <= i < |runs| ==> runs[i].fetched.Success?
    ensures Cycle(runs).Completed?
    ensures NoDup(PostsOf(Cycle(runs).deals))
    ensures forall p :: p in PostsOf(Cycle(runs).deals) <==> exists i :: ReportedBy(runs, i, p)
    ensures Sightings(Cycle(runs).deals) == |Found(runs, |runs|)|
    ensures |Sent(Cycle(runs))| == |Cycle(runs).deals|
    ensures forall i :: 0 <= i < |Cycle(runs).deals| ==> Sent(Cycle(runs))[i] == DealPush(Cycle(runs).deals[i])
    ensures forall j :: 0 <= j < |Cycle(runs).deals| ==>
      Cycle(runs).deals[j].searches == SearchesFor(Found(runs, |runs|), Cycle(runs).deals[j].post)
  {
    NoFailureRunsToEnd(runs);
    CycleFromOutcome(runs, [], []);
    CycleFromDeals(runs, [], []);
    var found := Found(runs, |runs|);
    var deals := Cycle(runs).deals;
    assert deals == AddAll([], found);
    AddAllAttribution(found);
    AddAllInvariants([], found);
    FoundPosts(runs, |runs|);
    FoundSightings(runs, |runs|);
    assert Elems(PostsOf(deals)) == Elems(PostsOf(found));
    forall p
      ensures p in PostsOf(deals) <==> p in PostsOf(found)
    {
      assert p in PostsOf(deals) <==> p in Elems(PostsOf(deals));
      assert p in PostsOf(found) <==> p in Elems(PostsOf(found));
    }
  }

  /** Two searches (say "Laptop Deals" and "Electronics") both report the
      same new post: the cycle pushes one deal for it, attributed to both
      searches in iteration order. */
  lemma CrossSearchScenario(s1: WatchedSearch, s2: WatchedSearch, p: Post, t1: int, t2: int)
    requires p.postedUtc >= s1.lastRunUtc && p.postedUtc >= s2.lastRunUtc
    ensures Cycle([SearchRun(s1, t1, Success([p])), SearchRun(s2, t2, Success([p]))])
      == Completed([Deal(p, [Advance(s1, t1), Advance(s2, t2)])], [Advance(s1, t1), Advance(s2, t2)])
    ensures Sent(Cycle([SearchRun(s1, t1, Success([p])), SearchRun(s2, t2, Success([p]))]))
      == [DealPush(Deal(p, [Advance(s1, t1), Advance(s2, t2)]))]
  {
    var a1 := Advance(s1, t1);
    var a2 := Advance(s2, t2);
    PollOneNew(s1, p, t1);
    PollOneNew(s2, p, t2);
    CycleOfTwo(s1, t1, [p], s2, t2, [p]);
    TwoSightingsMerge(a1, a2, p);
    SinglePush(Deal(p, [a1, a2]));
  }

  lemma SinglePush(d: Deal)
    ensures Pushes([d]) == [DealPush(d)]
  {
  }

  lemma TwoSightingsMerge(a1: WatchedSearch, a2: WatchedSearch, p: Post)
    ensures AddAll(AddAll([], [NewDeal(a1, p)]), [NewDeal(a2, p)]) == [Deal(p, [a1, a2])]
  {
    var first := AddAll([], [NewDeal(a1, p)]);
    assert first == [NewDeal(a1, p)] by {
      AddAllOne([], NewDeal(a1, p));
      assert NewDeal(a1, p).post !in PostsOf([]);
    }
    AddAllOne(first, NewDeal(a2, p));
    SecondSightingMerges(a1, a2, p);
  }

  lemma PollOneNew(s: WatchedSearch, p: Post, t: int)
    requires p.postedUtc >= s.lastRunUtc
    ensures PollSearch(s, [p], t) == ([NewDeal(Advance(s, t), p)], Advance(s, t))
  {
    assert Fresh([p], s.lastRunUtc) == [p];
    var r := PollSearch(s, [p], t);
    assert |r.0| == 1 && r.0[0] == NewDeal(Advance(s, t), p);
    assert r.0 == [NewDeal(Advance(s, t), p)];
  }

  lemma CycleOfTwo(s1: WatchedSearch, t1: int, ps1: seq<Post>, s2: WatchedSearch, t2: int, ps2: seq<Post>)
    ensures
      var deals := AddAll(AddAll([], PollSearch(s1, ps1, t1).0), PollSearch(s2, ps2, t2).0);
      Cycle([SearchRun(s1, t1, Success(ps1)), SearchRun(s2, t2, Success(ps2))])
        == Completed(deals, [PollSearch(s1, ps1, t1).1, PollSearch(s2, ps2, t2).1])
  {
    var r2 := SearchRun(s2, t2, Success(ps2));
    var runs := [SearchRun(s1, t1, Success(ps1)), r2];
    var p1 := PollSearch(s1, ps1, t1);
    var p2 := PollSearch(s2, ps2, t2);
    var d1 := AddAll([], p1.0);
    assert runs[1..] == [r2];
    assert [r2][1..] == [];
    assert Cycle(runs) == CycleFrom([r2], d1, [] + [p1.1]);
    assert [] + [p1.1] == [p1.1];
    assert CycleFrom([r2], d1, [p1.1]) == CycleFrom([], AddAll(d1, p2.0), [p1.1] + [p2.1]);
    assert [p1.1] + [p2.1] == [p1.1, p2.1];
  }

  lemma AddAllOne(deals: seq<Deal>, d: Deal)
    ensures AddAll(deals, [d]) == Add(deals, d)
  {
    assert [d][1..] == [];
  }

  /** A fetch that raises ends the cycle: the search handled before it keeps
      its new cursor but its deal is never pushed, and the failed search
      keeps its old cursor. */
  lemma FailedFetchScenario(s1: WatchedSearch, s2: WatchedSearch, p: Post, t1: int, t2: int, cause: string)
    ensures Cycle([SearchRun(s1, t1, Success([p])), SearchRun(s2, t2, Failure(FetchFailed(cause)))])
      == Aborted(FetchFailed(cause), [Advance(s1, t1), s2])
  {
    var runs := [SearchRun(s1, t1, Success([p])), SearchRun(s2, t2, Failure(FetchFailed(cause)))];
    assert runs[1..] == [SearchRun(s2, t2, Failure(FetchFailed(cause)))];
    assert Rows(runs[1..]) == [s2];
    var deals := AddAll([], PollSearch(s1, [p], t1).0);
    assert Cycle(runs) == CycleFrom(runs[1..], deals, [] + [Advance(s1, t1)]);
    assert [] + [Advance(s1, t1)] + [s2] == [Advance(s1, t1), s2];
  }
}

=== FILE: posts.dfy ===
/** A Reddit post (`RedditPost`) and how it is decoded from the API's JSON. */
module Posts {
  import opened Wrappers
  import opened PyErrors
  import opened Json

  /** One search result: its title, the url it links to, and the time it was
      posted, in whole UTC seconds. */
  datatype Post = Post(title: string, url: string, postedUtc: int)

  /** What a post hands to the notification sink. A plain post's push title is
      its own title, it has no body, and its push url is its url. */
  function PushTitle(p: Post): string { p.title }
  function PushBody(p: Post): Option<string> { None }
  function PushUrl(p: Post): string { p.url }

  /** `RedditPost.decode(item_data)`: the post is `item_data['data']`; its
      title, url and created_utc keys are looked up in that order, the time
      goes through `int()`, and the constructor then rejects a title or url
      that is not a str. */
  function Decode(item: Json): (r: Result<Post, PyError>)
    ensures !item.JObj? ==> r.Failure? && r.error.TypeError?
    ensures item.JObj? && "data" !in item.fields ==> r == Failure(KeyError("data"))
    ensures item.JObj? && "data" in item.fields ==>
      var data := item.fields["data"];
      && (!data.JObj? ==> r.Failure? && r.error.TypeError?)
      && (data.JObj? && "title" !in data.fields ==> r == Failure(KeyError("title")))
      && (data.JObj? && "title" in data.fields && "url" !in data.fields ==> r == Failure(KeyError("url")))
      && (data.JObj? && "title" in data.fields && "url" in data.fields && "created_utc" !in data.fields ==>
            r == Failure(KeyError("created_utc")))
    ensures WellFormedItem(item) ==>
      var data := item.fields["data"].fields;
      var time := ToInt(data["created_utc"]);
      && (time.Failure? ==> r == Failure(time.error))
      && (time.Success? && !data["title"].JStr? ==> r.Failure? && r.error.TypeError?)
      && (time.Success? && data["title"].JStr? && !data["url"].JStr? ==> r.Failure? && r.error.TypeError?)
      && (time.Success? && data["title"].JStr? && data["url"].JStr? ==>
            r == Success(Post(data["title"].s, data["url"].s, time.value)))
    ensures r.Success? ==>
      var data := item.fields["data"];
      && data.JObj?
      && "title" in data.fields && data.fields["title"] == JStr(r.value.title)
      && "url" in data.fields && data.fields["url"] == JStr(r.value.url)
      && "created_utc" in data.fields
      && ToInt(data.fields["created_utc"]) == Success(r.value.postedUtc)
  {
    var data :- Subscript(item, "data");
    var title :- Subscript(data, "title");
    var url :- Subscript(data, "url");
    var created :- Subscript(data, "created_utc");
    var posted :- ToInt(created);
    if !title.JStr? then Failure(TypeError("'title' must be a str"))
    else if !url.JStr? then Failure(TypeError("'url' must be a str"))
    else Success(Post(title.s, url.s, posted))
  }

  /** An item whose `data` is a dict holding title, url and created_utc,
      whatever other keys it carries. */
  predicate WellFormedItem(item: Json) {
    && item.JObj? && "data" in item.fields
    && item.fields["data"].JObj?
    && "title" in item.fields["data"].fields
    && "url" in item.fields["data"].fields
    && "created_utc" in item.fields["data"].fields
  }

  /** The JSON item the API would send for post `p`, with its time written as
      a decimal string. */
  function ItemFor(title: string, url: string, created: Json): Json {
    JObj(map["data" := JObj(map["title" := JStr(title), "url" := JStr(url), "created_utc" := created])])
  }

  /** Decoding an item whose time is the decimal string of `t` gives back the
      same title, url and time; the post then pushes its title and url and no
      body. */
  lemma DecodeRoundTrip(p: Post)
    ensures Decode(ItemFor(p.title, p.url, JStr(DecimalString(p.postedUtc)))) == Success(p)
    ensures PushTitle(p) == p.title && PushBody(p) == None && PushUrl(p) == p.url
  {
    ParseDecimalString(p.postedUtc);
  }

  /** A time sent as a JSON number is taken as is. */
  lemma DecodeIntegerTime(title: string, url: string, t: int)
    ensures Decode(ItemFor(title, url, JInt(t))) == Success(Post(title, url, t))
  {
  }

  /** A time that `int()` rejects makes the whole decode fail with that error. */
  lemma DecodeBadTime(title: string, url: string, created: Json)
    requires ToInt(created).Failure?
    ensures Decode(ItemFor(title, url, created)) == Failure(ToInt(created).error)
  {
  }

  /** `RedditGetRequest._first_listing`: a list of listings stands for its first
      element; anything else is already the listing. */
  function FirstListing(v: Json): (r: Result<Json, PyError>)
    ensures v.JArr? && |v.items| > 0 ==> r == Success(v.items[0])
    ensures v.JArr? && |v.items| == 0 ==> r == Failure(IndexError)
    ensures !v.JArr? ==> r == Success(v)
  {
    if v.JArr? then
      if |v.items| == 0 then Failure(IndexError) else Success(v.items[0])
    else Success(v)
  }

  /** Decoding each item in turn; the first failure is raised. */
  function DecodeAll(items: seq<Json>): (r: Result<seq<Post>, PyError>)
    ensures r.Success? <==> forall i :: 0 <= i < |items| ==> Decode(items[i]).Success?
    ensures r.Success? ==> |r.value| == |items|
    ensures r.Success? ==> forall i :: 0 <= i < |items| ==> Decode(items[i]) == Success(r.value[i])
    ensures r.Failure? ==>
      exists i :: && 0 <= i < |items|
                  && Decode(items[i]) == Failure(r.error)
                  && forall j :: 0 <= j < i ==> Decode(items[j]).Success?
    decreases |items|
  {
    if |items| == 0 then Success([])
    else
      var first :- Decode(items[0]);
      var rest :- DecodeAll(items[1..]);
      Success([first] + rest)
  }

  /** `listing['data']['children']` */
  function Children(listing: Json): Result<Json, PyError> {
    var data :- Subscript(listing, "data");
    Subscript(data, "children")
  }

  /** The loop `for item_data in listing['data']['children']` followed by
      `decode`. Iterating a dict or a str visits its keys or characters,
      which `decode` then rejects with TypeError; an empty one gives no posts. */
  function DecodeChildren(listing: Json): (r: Result<seq<Post>, PyError>)
    ensures Children(listing).Failure? ==> r == Failure(Children(listing).error)
    ensures Children(listing).Success? ==>
      var children := Children(listing).value;
      && (children.JArr? ==> r == DecodeAll(children.items))
      && (children.JObj? ==> (r.Success? <==> |children.fields| == 0))
      && (children.JStr? ==> (r.Success? <==> |children.s| == 0))
      && (!children.JArr? && !children.JObj? && !children.JStr? ==> r.Failure? && r.error.TypeError?)
      && (!children.JArr? && r.Success? ==> r.value == [])
      && (!children.JArr? && r.Failure? ==> r.error.TypeError?)
  {
    var children :- Children(listing);
    match children
    case JArr(items) => DecodeAll(items)
    case JObj(m) =>
      if |m| == 0 then Success([]) else Failure(TypeError("string indices must be integers"))
    case JStr(s) =>
      if |s| == 0 then Success([]) else Failure(TypeError("string indices must be integers"))
    case _ => Failure(TypeError("object is not iterable"))
  }

  /** `RedditGetRequest.items` after the HTTP call: the first listing's
      children, decoded. */
  function DecodeListing(response: Json): (r: Result<seq<Post>, PyError>)
    ensures response.JArr? && |response.items| == 0 ==> r == Failure(IndexError)
    ensures !response.JArr? ==> r == DecodeChildren(response)
    ensures response.JArr? && |response.items| > 0 ==> r == DecodeChildren(response.items[0])
  {
    var listing :- FirstListing(response);
    DecodeChildren(listing)
  }
}

=== FILE: searches.dfy ===
/** Saved searches (`RedditSearch`, `RedditWatchedSearch`) and the query
    parameters they send. */
module Searches {
  import opened Wrappers

  /** A stored search row. `title` is the human label used in notification
      titles; `lastRunUtc` is the cursor, in whole UTC seconds. */
  datatype WatchedSearch = WatchedSearch(
    uuid: string,
    title: string,
    query: string,
    userAgentBase: string,
    lastRunUtc: int)

  /** A plain `RedditSearch` has neither a default limit nor a sort order; a
      `RedditWatchedSearch` overrides both. */
  datatype SearchKind = PlainSearch | Watched

  const WatchedDefaultLimit: int := 10
  const WatchedSort: string := "new"

  function DefaultLimit(kind: SearchKind): Option<int> {
    match kind
    case PlainSearch => None
    case Watched => Some(WatchedDefaultLimit)
  }

  function SortOrder(kind: SearchKind): Option<string> {
    match kind
    case PlainSearch => None
    case Watched => Some(WatchedSort)
  }

  /** The dict `{limit, q, sort, type}`; `type` is always "link". */
  datatype Params = Params(limit: Option<int>, q: string, sort: Option<string>, linkType: string)

  /** `RedditSearch.params(limit)`: an explicit limit wins, otherwise the kind's
      default is used; the query goes through unchanged. */
  function SearchParams(kind: SearchKind, query: string, limit: Option<int>): (p: Params)
    ensures p.q == query
    ensures p.linkType == "link"
    ensures limit.Some? ==> p.limit == limit
    ensures limit.None? ==> p.limit == DefaultLimit(kind)
    ensures p.sort == SortOrder(kind)
  {
    Params(if limit.None? then DefaultLimit(kind) else limit, query, SortOrder(kind), "link")
  }

  /** A watched search asks for the ten newest links by default, and a plain
      search leaves both limit and sort unset. */
  lemma DefaultParams(query: string)
    ensures SearchParams(Watched, query, None) == Params(Some(10), query, Some("new"), "link")
    ensures SearchParams(PlainSearch, query, None) == Params(None, query, None, "link")
  {
  }
}

=== FILE: wrappers.dfy ===
/** Failure-compatible wrappers shared by the whole model: an optional value
    (Python's `None`) and a result that is either a value or the exception the
    Python code would raise. */
module Wrappers {

  datatype Option<+T> = None | Some(value: T)

  datatype Result<+R, +E> = Success(value: R) | Failure(error: E) {

    predicate IsFailure() {
      Failure?
    }

    function PropagateFailure<U>(): Result<U, E>
      requires Failure?
    {
      Failure(error)
    }

    function Extract(): R
      requires Success?
    {
      value
    }
  }
}

/** The Python exceptions the modelled code can raise, as values. */
module PyErrors {

  datatype PyError =
    | KeyError(key: string)       // a missing key in a dict subscript
    | TypeError(reason: string)   // a value of the wrong type
    | ValueError(reason: string)  // `int()` of a malformed string
    | IndexError                  // `[0]` of an empty list
    | NameError(name: string)     // an undefined name
    | FetchFailed(cause: string)  // anything the network layer raises
}
